=== FILE: README.md ===
# UHF RFID reader protocol engine, in Dafny

This project models the protocol engine of the Python driver for an EPC
Class-1 Gen-2 UHF RFID reader (`rfid_reader/reader.py`). The engine has five
parts, and each is proved against a specification:

- **Request framing** (`sendCommand`). The request is
  `length ‖ addr ‖ cmd ‖ payload ‖ lsb ‖ msb`.
  - The address is hex text passed through `bytearray.fromhex`.
  - The length is `str(k)`, padded to two digits and then read as
    hexadecimal.
- **The checksum** (`calculateCRC`). This is CRC-16/MCRF4XX, written out at
  bit level:
  - register preset 0xFFFF;
  - the reflected polynomial 0x8408;
  - no final XOR.
  The checksum is rendered the way `crcmod`'s `hexdigest` renders it, as four
  upper-case digits.
- **Response slicing**: the `parse=True` branch of `getResponse`.
- **Tag extraction** (`parseTag`). It finds the first `"e200"`. It then cuts
  one 24-character window, or collects the `e2\w{22}` matches the way
  `re.findall` scans.
- **The session**: `validateConfig` and the `inventory` / `singleInventory`
  polls, in a class `RFIDReader`.

Modules, in dependency order:

| file | module | contents |
|---|---|---|
| `hex.dfy` | `Hex` | bytes (`bv8`), `hexlify`, `bytearray.fromhex`, `str(n)`, `int(s, 16)` |
| `crc.dfy` | `Crc` | the register, `Crc16`, the hexdigest, the `calculateCRC` loop |
| `frame.dfy` | `Frame` | the length field and request assembly |
| `response.dfy` | `Response` | Python slicing and the reply dictionary |
| `tags.dfy` | `Tags` | `str.index`, the `findall` scan and `parseTag` |
| `reader.dfy` | `Reader` | configuration check, inventory results, and the `RFIDReader` class |

The connection is represented by two fields of `RFIDReader`:

- `sent` lists the frames written by `sendall`/`write`.
- `incoming` lists the buffers `recv`/`readline` will return, in order.

A read ends in one of three ways:

- On a serial line with nothing pending, `readline` returns an empty buffer
  once the port's 5-second timeout expires. `getResponse` then returns that
  empty buffer.
- On a socket with nothing pending, `recv` raises when the deadline passes.
  This is modelled as `Timeout`.
- With a communication other than `"socket"` or `"serial"`, the loop spins
  until the deadline and raises. This is also `Timeout`.

The model follows the code as written, including these behaviours:

- The baud rate is checked against the values of `BAUDRATE` (`{0}`), not its
  keys, so 5600 is refused.
- The length is decimal text read as hexadecimal: 10 goes out as 0x10. It
  counts the bytes after the length field, not the field itself.
- `parseTag(..., True)` returns `[]` rather than `None` when nothing is found.
  So the `inventory` loop never resends, and `singleInventory` returns `None`
  for zero or several tags without retrying.
- With `parse=True`, an empty reply buffer raises: `int('', 16)`. A short
  one is sliced without error.
- A silent serial line makes `inventory` return `[]` and `singleInventory`
  return `None`, without raising.
- The tag region starts at the literal `"e200"`.
- The address may be any hex text, so it can be zero or several bytes.

## Model

| member | source | states |
|---|---|---|
| Hex.Hexlify | rfid_reader/reader.py:140 | `hexlify` writes two lower-case hexadecimal digits per byte, none of them whitespace |
| Hex.HexlifySlice | rfid_reader/reader.py:139-149 | hexlifying bytes i..j is the hex text at 2i..2j, so fixed character offsets are byte offsets |
| Hex.FromHex | rfid_reader/reader.py:155 | `fromhex` never yields more than one byte per two characters |
| Hex.FromHexHexlify | rfid_reader/reader.py:155 | `fromhex` undoes `hexlify` for every byte string |
| Hex.FromHexDigits | rfid_reader/reader.py:155-159 | on a run of hex digits, `fromhex` succeeds exactly when the count is even, giving half as many bytes, byte i being the value of digits 2i and 2i+1 |
| Hex.FromHexPair | rfid_reader/reader.py:165-166 | two hex digits decode to the one byte they denote |
| Hex.ParseHexInt | rfid_reader/reader.py:143 | on the digits-only text `hexlify` produces, `int(s, 16)` succeeds exactly when the text is non-empty |
| Hex.ParseHexIntByte | rfid_reader/reader.py:143 | `int` of a byte's two hexlified digits is that byte's value |
| Hex.DecimalString | rfid_reader/reader.py:158 | `str(n)` is decimal digits whose value is n, with no leading zero |
| Hex.DecimalStringLength | rfid_reader/reader.py:158 | `str(n)` has exactly k digits when 10^(k-1) <= n < 10^k |
| Hex.UpperWordHex | rfid_reader/reader.py:182 | four hex digits, none of them lower-case, whose value is 256·hi + lo |
| Crc.CrcEmpty | rfid_reader/reader.py:179-182 | the checksum of no bytes is the preset 0xFFFF; there is no final XOR |
| Crc.CheckValue | rfid_reader/reader.py:180 | the checksum of ASCII "123456789" is 0x6F91, the catalogue check value of CRC-16/MCRF4XX |
| Crc.UpdateAppend | rfid_reader/reader.py:181 | feeding a buffer in two pieces gives the same register as feeding it whole |
| Crc.UpdateSnoc | rfid_reader/reader.py:181 | feeding one more byte is one byte step on the register so far |
| Crc.DowndateUpdate | rfid_reader/reader.py:181 | running the register backwards over the same bytes recovers the starting register |
| Crc.UpdateInjective | rfid_reader/reader.py:181 | distinct registers fed the same bytes stay distinct |
| Crc.SingleByteChangeDetected | rfid_reader/reader.py:179-182 | two buffers that differ in one byte, anywhere, never share a checksum |
| Crc.ResidueZero | rfid_reader/reader.py:165-170 | feeding a register its own low byte then high byte clears it |
| Crc.CrcWithTrailerIsZero | rfid_reader/reader.py:161-172 | a buffer followed by its checksum, low byte first, has checksum 0 |
| Crc.HexDigest | rfid_reader/reader.py:182 | the hexdigest is 4 upper-case hex digits whose value is the checksum, high byte first |
| Crc.HexDigestHalves | rfid_reader/reader.py:165-166 | `fromhex(crc[2:4])` is the low byte and `fromhex(crc[0:2])` is the high byte |
| Crc.FeedByte | rfid_reader/reader.py:181 | the bit loop leaves the register one byte step further on |
| Crc.CalculateCrc | rfid_reader/reader.py:179-182 | the loop over the buffer returns the hexdigest of the CRC-16/MCRF4XX of the whole buffer |
| Crc.BitStep | rfid_reader/reader.py:181 | one reflected register step, shift right and fold in 0x8408 when the bit shifted out was set. Its contract is `Crc.UnstepBitStep`: the step can be undone |
| Crc.ByteStep | rfid_reader/reader.py:181 | one byte XORed into the low end, then eight bit steps. Its contracts are `Crc.ByteUnstepByteStep` (the step can be undone) and `Crc.ByteStepInjectiveInByte` (distinct bytes leave distinct registers) |
| Crc.Update | rfid_reader/reader.py:181 | the accumulator fed a buffer first to last. Its contracts are `Crc.UpdateAppend`, `Crc.UpdateSnoc`, `Crc.DowndateUpdate` and `Crc.UpdateInjective` |
| Crc.Crc16 | rfid_reader/reader.py:179-182 | the CRC-16/MCRF4XX of a buffer. Its contracts are `Crc.CrcEmpty`, `Crc.CheckValue`, `Crc.SingleByteChangeDetected` and `Crc.CrcWithTrailerIsZero` |
| Crc.UnstepBitStep | rfid_reader/reader.py:181 | a bit step run backwards gives back the register |
| Crc.ByteUnstepByteStep | rfid_reader/reader.py:181 | a byte step run backwards with the same byte gives back the register |
| Crc.ByteStepInjectiveInByte | rfid_reader/reader.py:181 | distinct bytes fed to the same register leave distinct registers |
| Frame.ToBytes | rfid_reader/reader.py:156-157 | `bytearray` of in-range integers keeps their count and values |
| Frame.LengthText | rfid_reader/reader.py:158-159 | the text given to `fromhex` is `str(k)` with a '0' in front when k < 10: exactly two digits below 10, otherwise as many digits as `str(k)`, all decimal, with decimal value k |
| Frame.LengthField | rfid_reader/reader.py:158-159 | the length field exists exactly when the padded decimal text has an even number of digits, and is half that many bytes |
| Frame.LengthFieldOneDigit | rfid_reader/reader.py:158-159 | a length below 10 is sent as its own value |
| Frame.LengthFieldTwoDigits | rfid_reader/reader.py:158-159 | a length of 10..99 is sent as 16·(k/10) + k%10: decimal digits read as hex |
| Frame.LengthFieldSmall | rfid_reader/reader.py:158-159 | every length below 100 is one byte, 16·(k/10) + k%10 |
| Frame.LengthFieldThreeDigits | rfid_reader/reader.py:158-159 | a length of 100..999 makes `fromhex` raise |
| Frame.LengthFieldFourDigits | rfid_reader/reader.py:158-159 | a length of 1000..9999 becomes two length bytes |
| Frame.Assemble | rfid_reader/reader.py:169-172 | a frame is its parts plus two checksum bytes |
| Frame.BuildRequest | rfid_reader/reader.py:153-172 | a request is built exactly when the address text decodes, the command and every payload item are 0..255, and the padded length text has an even number of digits. `Frame.RequestLayout` and `Frame.RequestTrailer` say where each part sits |
| Frame.RequestLayout | rfid_reader/reader.py:153-172 | a built request starts with the length field, then the address bytes, the command and the payload; its size is the field plus the value counted in it, so the length counts exactly the bytes after the field |
| Frame.RequestTrailer | rfid_reader/reader.py:160-172 | the last two bytes of a built request are the checksum of everything before them, low byte first |
| Frame.AssembleLayout | rfid_reader/reader.py:169-172 | in any assembled frame the parts sit in order and the trailer is the checksum of the bytes before it |
| Frame.MakeRequest | rfid_reader/reader.py:153-172 | the step-by-step building in `sendCommand` returns what `Frame.BuildRequest` describes, error or frame |
| Frame.AssembleRequest | rfid_reader/reader.py:160-172 | both branches on `len(data)` give the same frame; the checksum comes from `calculateCRC`, low half first |
| Frame.RequestSize | rfid_reader/reader.py:158-172 | with a one-byte address and at most 95 payload bytes the request is built and is the payload plus 5 bytes |
| Frame.LongPayloadRejected | rfid_reader/reader.py:158-159 | with a one-byte address, 96..995 payload bytes make the build fail on the length |
| Frame.RequestResidueZero | rfid_reader/reader.py:160-172 | the checksum of any built request, trailer included, is 0 |
| Frame.InventoryCrc | rfid_reader/reader.py:161-163 | the checksum of `04 00 01` is 0x4BDB |
| Frame.InventoryAssembled | rfid_reader/reader.py:169-172 | length 4, address 0, command 1 and no payload assemble to `04 00 01 DB 4B` |
| Reader.InventoryFrame | rfid_reader/reader.py:153-172 | INVENTORY at address "00" is the request `04 00 01 DB 4B` |
| Reader.DefaultAddrByte | rfid_reader/reader.py:43 | the default address "00" is the byte 0 |
| Response.Clamp | rfid_reader/reader.py:143-148 | Python's slice bound: a bound inside the sequence is kept, a negative bound counts from the end, a bound past the end becomes the length and one before the start becomes 0 |
| Response.Slice | rfid_reader/reader.py:143-148 | Python's `s[start:stop]`: the elements from the clamped start up to the clamped stop, and empty when the stop is not past the start |
| Response.Parse | rfid_reader/reader.py:139-149 | the `parse=True` branch fails exactly on an empty buffer. `Response.ParseSucceeds`, `Response.ParseFields` and `Response.ParseIgnoresChecksum` give the fields |
| Response.ParseSucceeds | rfid_reader/reader.py:139-149 | parsing fails exactly on an empty buffer; otherwise `len` is the first byte's value |
| Response.ParseFields | rfid_reader/reader.py:139-149 | with 5 or more bytes, `addr` is byte 1, `reCmd` byte 2, `data` bytes 3..n-3, and `lsb`/`msb` the last two, all as hex text |
| Response.ParseIgnoresChecksum | rfid_reader/reader.py:139-149 | changing the last two bytes changes only `lsb` and `msb`; nothing is checked against the checksum |
| Response.ParseAssembled | rfid_reader/reader.py:139-149 | slicing a frame assembled with a one-byte length and a one-byte address gives back each part as hex text |
| Response.ParseAssembledValues | rfid_reader/reader.py:139-149 | for a frame with a one-byte length and a one-byte address, the sliced fields decode back to the length, address, command and payload |
| Response.BuiltFrame | rfid_reader/reader.py:153-172 | a request for a one-byte address and a short payload is the assembled frame with the length byte 16·(k/10) + k%10 |
| Response.ParseBuiltRequest | rfid_reader/reader.py:139-172 | parsing a built request (one-byte address, at most 95 payload bytes) recovers its length byte, address, command and payload |
| Tags.IndexFrom | rfid_reader/reader.py:112 | `index` gives the first occurrence from a start, or none exists |
| Tags.Index | rfid_reader/reader.py:112 | `rawtag.index('e200')` is the first occurrence, or none exists and `ValueError` is raised |
| Tags.ScanFrom | rfid_reader/reader.py:119 | every reported position is a match of `e2\w{22}`, and positions increase at least 24 apart |
| Tags.ScanComplete | rfid_reader/reader.py:119 | every position where the pattern matches lies inside a reported match |
| Tags.TagsAt | rfid_reader/reader.py:119 | `findall` returns the 24-character text at each reported position |
| Tags.FindAll | rfid_reader/reader.py:119 | every string `findall` returns is 24 characters and matches `e2\w{22}`. `Tags.ScanFrom` and `Tags.ScanComplete` fix which ones |
| Tags.ParseTag | rfid_reader/reader.py:106-122 | with `parse_all=True` the result is always a list, with `parse_all=False` never one; it is `None` exactly when `parse_all=False` and "e200" is absent. `Tags.ParseTagAll` and `Tags.ParseTagFirst` give the contents |
| Tags.ParseTagAll | rfid_reader/reader.py:106-122 | with `parse_all=True` the result is always a list, never `None`. It is empty without "e200". Each tag is a pattern match at its text position, and positions increase at least 24 apart within [first "e200", len-4) |
| Tags.ParseTagAllShape | rfid_reader/reader.py:118-120 | every listed tag is 24 characters starting "e2" |
| Tags.ParseTagAllComplete | rfid_reader/reader.py:118-120 | every match inside [first "e200", len-4) is covered by a listed tag |
| Tags.RegionMatch | rfid_reader/reader.py:118-119 | a match in the cut region is a match in the whole text at the shifted position |
| Tags.ParseTagFirst | rfid_reader/reader.py:112-116 | with `parse_all=False`: `None` exactly when "e200" is absent; otherwise `text[i:i+24]`, of length min(24, len-i), starting "e200" and not checked further |
| Reader.CheckConfigSpec | rfid_reader/reader.py:100-104 | the check passes exactly for communication "socket"/"serial" with baud rate 0. A bad communication is reported whatever the baud rate, and 5600 is refused |
| Reader.BaudrateValues | rfid_reader/reader.py:5-7 | the values of `BAUDRATE` are exactly {0} |
| Reader.CheckConfig | rfid_reader/reader.py:100-104 | no error exactly when the communication is "socket" or "serial" and the baud rate is among `BAUDRATE`'s values; a bad communication is the error whenever the communication is not one of the two |
| Reader.DefaultsValid | rfid_reader/reader.py:42-44 | the class defaults pass `validateConfig` |
| Reader.InventoryResult | rfid_reader/reader.py:184-190 | the tags `inventory` returns for a reply are 24 characters each and start "e2" |
| Reader.SingleInventoryResult | rfid_reader/reader.py:192-198 | `singleInventory` gives a tag exactly when one tag was found, and that tag is 24 characters |
| Reader.NoMarkerNoTags | rfid_reader/reader.py:121-122 | a reply without "e200" gives no tags and no single tag |
| Reader.InventoryFindsTag | rfid_reader/reader.py:184-198 | a reply made of one 12-byte tag starting `E2 00` and the two checksum bytes gives exactly that tag, as lower-case hex, from both `inventory` and `singleInventory` |
| Reader.MarkerAtStart | rfid_reader/reader.py:112 | bytes starting `E2 00` hexlify to text starting "e200", the marker `parseTag` searches for |
| Reader.RFIDReader.constructor | rfid_reader/reader.py:42-69 | settings not given keep the defaults "socket", "00" and 0; nothing is sent or pending |
| Reader.RFIDReader.Deliver | rfid_reader/reader.py:133-137 | a buffer sent by the device joins the end of what `recv`/`readline` will return |
| Reader.RFIDReader.ValidateConfig | rfid_reader/reader.py:100-104 | raises nothing exactly when communication is "socket"/"serial" and baud rate is 0 |
| Reader.RFIDReader.SendCommand | rfid_reader/reader.py:153-177 | the result is `BuildRequest`'s, error or frame; the frame is written only for "socket"/"serial" |
| Reader.RFIDReader.GetResponse | rfid_reader/reader.py:124-137 | with the default positive timeout, serial always returns a buffer: the next pending one, consumed, or an empty one when the line is silent. A socket returns the next pending one or times out; any other communication times out. A timeout consumes nothing |
| Reader.RFIDReader.GetParsedResponse | rfid_reader/reader.py:124-149 | the buffer `getResponse` returns, parsed; an empty one raises, and a timeout leaves the pending buffers untouched |
| Reader.RFIDReader.Poll | rfid_reader/reader.py:184-197 | the `while data is None` loop runs once: one request written, one read, its tag list returned. Build errors change nothing; timeouts consume nothing |
| Reader.RFIDReader.Inventory | rfid_reader/reader.py:184-190 | one INVENTORY request and one read, whose tags are returned (`[]` from a silent serial line). On a build error nothing changes, and on a timeout nothing is consumed |
| Reader.RFIDReader.SingleInventory | rfid_reader/reader.py:192-198 | one INVENTORY_SINGLE request and one read; the tag is returned only when the reply holds exactly one (`None` from a silent serial line). On a build error nothing changes, and on a timeout nothing is consumed |

## Left out

- Opening and closing the socket or serial port (`connect`, `disconnect`) is not modelled. This covers the serial settings and the `is 'socket'` identity test in `connect`. It is I/O through libraries outside this model.
- The model starts from a connected session. `connection` is `None` until `connect` runs, so in the driver a `sendCommand` or `getResponse` before it raises `AttributeError`; that raise is not modelled.
- A silent serial line is modelled as an empty buffer returned by the read, with nothing consumed. `Timeout` on an empty `incoming` stands only for a socket `recv` timing out (`rfid_reader/reader.py:135`).
- The reply dictionary holds `data`, `lsb` and `msb` as text, but the driver leaves them as `bytes` (only `addr` and `reCmd` are decoded). The characters are the same; the Python type difference is not modelled.
- Writing and reading are not modelled as I/O. Writes only append to `sent`, and reads only take from `incoming`.
- The wall-clock deadline in `getResponse` (`time.time`, `settimeout`) is not modelled. A socket read that would wait past it is the outcome `Timeout`.
- The `recv` buffer size of 8192 is not modelled: a buffer is whatever the connection hands back.
- The `crcmod` library is not modelled. The CRC-16/MCRF4XX algorithm it is configured with is written out instead.
- `getInfo` is left out. It only prints the reply's data field.
- `scantags` and `scantag` are not repeated. They only call `inventory` and `singleInventory`, which are modelled.
- The `timeout`, `host`, `port` and `config` keywords of the constructor are left out, and so is the shared class-level `config` dictionary. `host`, `port` and `config` only configure the transport. `timeout` also sets the deadline in `getResponse` (`rfid_reader/reader.py:128-131`): the model fixes the default positive timeout of 5 seconds, so a read is always attempted. With a timeout of 0 or less the driver raises before any read, serial included; that raise is not modelled.
- Command codes other than INVENTORY and INVENTORY_SINGLE are left out. They only name numbers for the same framing.
- `\w` is modelled as ASCII letters, digits and `_`, not Python's Unicode word characters. `parseTag` only sees `hexlify` output, where the two agree.
- `rawtag.decode('utf-8')` is not modelled: the model takes the decoded text. `hexlify` output is ASCII, so the decode cannot fail on what the driver passes.
- `sendCommand` is modelled only for a command that is an integer and a payload that is a list of integers. Other argument types `bytearray` accepts, such as bytes or an iterable, are not modelled.
- Hex.ParseHexInt: models `int(s, 16)` only on text made of hex digits. Python also accepts surrounding whitespace, a sign, a `0x` prefix and underscores. These are not modelled, because the driver only passes `hexlify` output.
- Response.ParseBuiltRequest: covers only a one-byte address and at most 95 payload bytes. Other requests have a different number of leading bytes, and the fixed offsets do not line up with them.
- Frame.RequestSize: states the payload + 5 size only for a one-byte address with a one-byte length field. The general size is `Frame.Assemble`'s.

=== FILE: crc.dfy ===
/** The frame checksum: CRC-16/MCRF4XX as catalogued by RevEng — polynomial
    0x1021 processed bit-reflected (0x8408), register preset to 0xFFFF, no
    final XOR, check value 0x6F91 over the ASCII text "123456789". The
    driver obtains it from `crcmod`'s predefined `crc-16-mcrf4xx`; here the
    register algorithm is written out. */
module Crc {
  import opened Hex

  const Init: bv16 := 0xFFFF
  const Poly: bv16 := 0x8408

  /** One bit of the reflected shift register: shift right, and fold the
      polynomial in when the bit shifted out was set. */
  function BitStep(r: bv16): bv16 {
    if r & 1 == 1 then (r >> 1) ^ Poly else r >> 1
  }

  /** `n` bit steps. */
  function BitSteps(r: bv16, n: nat): bv16 {
    if n == 0 then r else BitStep(BitSteps(r, n - 1))
  }

  /** A byte placed in the low half of a register-sized word. */
  function Widen(b: byte): bv16 {
    b as bv16
  }

  /** One byte into the register: XOR it into the low end, then eight bit
      steps. */
  function ByteStep(r: bv16, b: byte): bv16 {
    BitSteps(r ^ Widen(b), 8)
  }

  /** Feeding a run of bytes, first to last; this is the accumulator's
      `update`. */
  function Update(r: bv16, data: seq<byte>): bv16
    decreases |data|
  {
    if data == [] then r else Update(ByteStep(r, data[0]), data[1..])
  }

  /** The checksum of a buffer: the register after feeding every byte to the
      preset register, with no final XOR. A `bv16`, so always below 65536. */
  function Crc16(data: seq<byte>): bv16 {
    Update(Init, data)
  }

  /** The low-order byte of a checksum, transmitted first. */
  function Lsb(c: bv16): byte {
    (c & 0xFF) as bv8
  }

  /** The high-order byte of a checksum, transmitted second. */
  function Msb(c: bv16): byte {
    (c >> 8) as bv8
  }

  /** crcmod's `hexdigest` of a 16-bit value: `'%04X'`, four upper-case
      digits, the high byte's two first. */
  function HexDigest(c: bv16): (s: string)
    ensures |s| == 4 && forall i :: 0 <= i < 4 ==> IsHexDigit(s[i]) && !('a' <= s[i] <= 'f')
    ensures HexValue(s) == 256 * Msb(c) as int + Lsb(c) as int
  {
    UpperWordHex(Msb(c), Lsb(c))
  }

  /** The hexdigest split as the driver splits it: characters 2..4 decode to
      the low byte and characters 0..2 to the high byte. */
  lemma HexDigestHalves(c: bv16)
    ensures FromHex(HexDigest(c)[2..4]) == Some([Lsb(c)])
    ensures FromHex(HexDigest(c)[0..2]) == Some([Msb(c)])
  {
    var s := HexDigest(c);
    assert s == UpperByteHex(Msb(c)) + UpperByteHex(Lsb(c));
    FromHexPair(s[2], s[3]);
    FromHexPair(s[0], s[1]);
    assert s[2..4] == [s[2], s[3]];
    assert s[0..2] == [s[0], s[1]];
    PairByteUpperHex(Lsb(c));
    PairByteUpperHex(Msb(c));
  }

  /** Feeding a buffer in two pieces is feeding it whole, so the streaming
      accumulator and the one-shot checksum agree. */
  lemma {:induction false} UpdateAppend(r: bv16, a: seq<byte>, b: seq<byte>)
    ensures Update(r, a + b) == Update(Update(r, a), b)
    decreases |a|
  {
    if a == [] {
      assert a + b == b;
    } else {
      assert (a + b)[0] == a[0];
      assert (a + b)[1..] == a[1..] + b;
      UpdateAppend(ByteStep(r, a[0]), a[1..], b);
    }
  }

  lemma UpdateSnoc(r: bv16, a: seq<byte>, b: byte)
    ensures Update(r, a + [b]) == ByteStep(Update(r, a), b)
  {
    UpdateAppend(r, a, [b]);
    assert Update(Update(r, a), [b]) == Update(ByteStep(Update(r, a), b), []);
  }

  /** The checksum of the empty buffer is the preset 0xFFFF: no final XOR. */
  lemma CrcEmpty()
    ensures Crc16([]) == 0xFFFF
  {
  }

  /** Eight bit steps written out, for evaluating on constants and for
      bit-level reasoning. */
  function Feed(r: bv16, x: bv16): bv16 {
    var y := r ^ x;
    BitStep(BitStep(BitStep(BitStep(BitStep(BitStep(BitStep(BitStep(y))))))))
  }

  lemma EightBitSteps(r: bv16, x: bv16)
    ensures BitSteps(r ^ x, 8) == Feed(r, x)
  {
    var y := r ^ x;
    assert BitSteps(y, 1) == BitStep(y);
    assert BitSteps(y, 2) == BitStep(BitSteps(y, 1));
    assert BitSteps(y, 3) == BitStep(BitSteps(y, 2));
    assert BitSteps(y, 4) == BitStep(BitSteps(y, 3));
    assert BitSteps(y, 5) == BitStep(BitSteps(y, 4));
    assert BitSteps(y, 6) == BitStep(BitSteps(y, 5));
    assert BitSteps(y, 7) == BitStep(BitSteps(y, 6));
    assert BitSteps(y, 8) == BitStep(BitSteps(y, 7));
  }

  /** The catalogue's check value: the checksum of "123456789" is 0x6F91. */
  lemma CheckValue()
    ensures Crc16([0x31, 0x32, 0x33, 0x34, 0x35, 0x36, 0x37, 0x38, 0x39]) == 0x6F91
  {
    var d: seq<byte> := [0x31, 0x32, 0x33, 0x34, 0x35, 0x36, 0x37, 0x38, 0x39];
    assert |d| == 9 && d[9..] == [];
    ByteStepFeed(0xFFFF, 0x31);
    ByteStepFeed(0x2F8D, 0x32);
    ByteStepFeed(0x4D53, 0x33);
    ByteStepFeed(0x634B, 0x34);
    ByteStepFeed(0x8B13, 0x35);
    ByteStepFeed(0x44BF, 0x36);
    ByteStepFeed(0x198D, 0x37);
    ByteStepFeed(0x1AC8, 0x38);
    ByteStepFeed(0xF795, 0x39);
    assert Update(0xFFFF, d) == Update(0x2F8D, d[1..]);
    assert Update(0x2F8D, d[1..]) == Update(0x4D53, d[2..]);
    assert Update(0x4D53, d[2..]) == Update(0x634B, d[3..]);
    assert Update(0x634B, d[3..]) == Update(0x8B13, d[4..]);
    assert Update(0x8B13, d[4..]) == Update(0x44BF, d[5..]);
    assert Update(0x44BF, d[5..]) == Update(0x198D, d[6..]);
    assert Update(0x198D, d[6..]) == Update(0x1AC8, d[7..]);
    assert Update(0x1AC8, d[7..]) == Update(0xF795, d[8..]);
    assert Update(0xF795, d[8..]) == Update(0x6F91, d[9..]);
  }

  /** A bit step run backwards: the top bit of a stepped register says
      whether the polynomial was folded in, and so which bit was shifted
      out. */
  function Unstep(t: bv16): bv16 {
    if t & 0x8000 == 0x8000 then ((t ^ Poly) << 1) | 1 else t << 1
  }

  function Unsteps(t: bv16, n: nat): bv16
    decreases n
  {
    if n == 0 then t else Unsteps(Unstep(t), n - 1)
  }

  /** `ByteStep` run backwards. */
  function ByteUnstep(t: bv16, b: byte): bv16 {
    Unsteps(t, 8) ^ Widen(b)
  }

  /** `Update` run backwards: undo the last byte first. */
  function Downdate(t: bv16, data: seq<byte>): bv16
    decreases |data|
  {
    if data == [] then t else ByteUnstep(Downdate(t, data[1..]), data[0])
  }

  lemma UnstepBitStep(r: bv16)
    ensures Unstep(BitStep(r)) == r
  {
  }

  lemma {:induction false} UnstepsBitSteps(r: bv16, n: nat)
    ensures Unsteps(BitSteps(r, n), n) == r
  {
    if n > 0 {
      UnstepBitStep(BitSteps(r, n - 1));
      UnstepsBitSteps(r, n - 1);
    }
  }

  lemma ByteUnstepByteStep(r: bv16, b: byte)
    ensures ByteUnstep(ByteStep(r, b), b) == r
  {
    UnstepsBitSteps(r ^ Widen(b), 8);
  }

  /** Feeding bytes loses nothing about the register they were fed to. */
  lemma {:induction false} DowndateUpdate(r: bv16, data: seq<byte>)
    ensures Downdate(Update(r, data), data) == r
    decreases |data|
  {
    if data != [] {
      DowndateUpdate(ByteStep(r, data[0]), data[1..]);
      ByteUnstepByteStep(r, data[0]);
    }
  }

  /** Distinct registers fed the same bytes stay distinct. */
  lemma UpdateInjective(r: bv16, s: bv16, data: seq<byte>)
    requires Update(r, data) == Update(s, data)
    ensures r == s
  {
    DowndateUpdate(r, data);
    DowndateUpdate(s, data);
  }

  /** Distinct bytes fed to the same register leave distinct registers. */
  lemma ByteStepInjectiveInByte(r: bv16, b: byte, b': byte)
    requires ByteStep(r, b) == ByteStep(r, b')
    ensures b == b'
  {
    UnstepsBitSteps(r ^ Widen(b), 8);
    UnstepsBitSteps(r ^ Widen(b'), 8);
    assert r ^ Widen(b) == r ^ Widen(b');
    assert Widen(b) == Widen(b');
  }

  /** Every single-byte corruption is detected: two buffers that differ in
      one byte, wherever it sits, have the same checksum only if that byte is
      in fact the same. */
  lemma SingleByteChangeDetected(a: seq<byte>, b: byte, b': byte, c: seq<byte>)
    requires Crc16(a + [b] + c) == Crc16(a + [b'] + c)
    ensures b == b'
  {
    UpdateAppend(Init, a + [b], c);
    UpdateAppend(Init, a + [b'], c);
    UpdateSnoc(Init, a, b);
    UpdateSnoc(Init, a, b');
    var r := Update(Init, a);
    UpdateInjective(ByteStep(r, b), ByteStep(r, b'), c);
    ByteStepInjectiveInByte(r, b, b');
  }

  /** Feeding a register its own low byte and then its own high byte clears
      it. */
  lemma FeedResidue(r: bv16)
    ensures Feed(Feed(r, r & 0xFF), r >> 8) == 0
  {
    assert Feed(r, r & 0xFF) == r >> 8;
  }

  lemma ByteStepFeed(r: bv16, b: byte)
    ensures ByteStep(r, b) == Feed(r, Widen(b))
  {
    EightBitSteps(r, Widen(b));
  }

  lemma ResidueZero(r: bv16)
    ensures Update(r, [Lsb(r), Msb(r)]) == 0
  {
    var lo, hi := Lsb(r), Msb(r);
    assert Widen(lo) == r & 0xFF;
    assert Widen(hi) == r >> 8;
    ByteStepFeed(r, lo);
    FeedResidue(r);
    var mid := ByteStep(r, lo);
    ByteStepFeed(mid, hi);
    assert Update(r, [lo, hi]) == Update(mid, [hi]);
    assert Update(mid, [hi]) == Update(ByteStep(mid, hi), []);
  }

  /** Appending the checksum of a buffer, low byte first, gives a buffer
      whose checksum is zero: the integrity test a receiver could apply. */
  lemma CrcWithTrailerIsZero(data: seq<byte>)
    ensures Crc16(data + [Lsb(Crc16(data)), Msb(Crc16(data))]) == 0
  {
    var r := Update(Init, data);
    UpdateAppend(Init, data, [Lsb(r), Msb(r)]);
    ResidueZero(r);
  }

  /** One byte through the register, bit by bit. */
  method FeedByte(reg: bv16, b: byte) returns (r: bv16)
    ensures r == ByteStep(reg, b)
  {
    var x := reg ^ Widen(b);
    r := x;
    var j := 0;
    while j < 8
      invariant 0 <= j <= 8
      invariant r == BitSteps(x, j)
    {
      if r & 1 == 1 {
        r := (r >> 1) ^ Poly;
      } else {
        r := r >> 1;
      }
      j := j + 1;
    }
  }

  /** `calculateCRC`: a fresh accumulator, one `update` with the whole
      buffer, and its hexdigest. */
  method CalculateCrc(data: seq<byte>) returns (digest: string)
    ensures |digest| == 4
    ensures digest == HexDigest(Crc16(data))
  {
    var reg: bv16 := Init;
    var i := 0;
    while i < |data|
      invariant 0 <= i <= |data|
      invariant reg == Update(Init, data[..i])
    {
      reg := FeedByte(reg, data[i]);
      UpdateSnoc(Init, data[..i], data[i]);
      assert data[..i + 1] == data[..i] + [data[i]];
      i := i + 1;
    }
    assert data[..i] == data;
    digest := HexDigest(reg);
  }
}

=== FILE: frame.dfy ===
/** Request framing: the bytes `sendCommand` writes to the connection,
    `length ‖ addr ‖ cmd ‖ payload ‖ lsb ‖ msb`, where the checksum covers
    everything before it and its low byte goes first. */
module Frame {
  import opened Hex
  import opened Crc

  /** Why building a request raises. Each is a `ValueError` in the driver. */
  datatype FrameError =
    | BadAddress             // `bytearray.fromhex` rejects the address text
    | CommandOutOfRange      // `bytearray([cmd])` needs 0 <= cmd < 256
    | PayloadByteOutOfRange  // `bytearray(data)` needs every item in 0..255
    | LengthNotEncodable     // the padded decimal length has an odd digit count

  predicate IsByteValue(n: int) {
    0 <= n < 256
  }

  predicate AllByteValues(xs: seq<int>) {
    forall i :: 0 <= i < |xs| ==> IsByteValue(xs[i])
  }

  /** `bytearray(xs)` for a list of integers already known to fit. */
  function ToBytes(xs: seq<int>): (bs: seq<byte>)
    requires AllByteValues(xs)
    ensures |bs| == |xs|
    ensures forall i :: 0 <= i < |xs| ==> bs[i] == xs[i] as bv8
  {
    seq(|xs|, i requires 0 <= i < |xs| => xs[i] as bv8)
  }

  /** The text handed to `fromhex` for a length `k`: `str(k)`, with a '0'
      in front when that is a single digit. */
  function LengthText(k: nat): (s: string)
    ensures |s| == if k < 10 then 2 else |DecimalString(k)|
    ensures forall i :: 0 <= i < |s| ==> IsDecimalDigit(s[i]) && IsHexDigit(s[i])
    ensures DecimalValue(s) == k
  {
    var d := DecimalString(k);
    if |d| >= 2 then d
    else
      var s := ['0'] + d;
      assert s[..|s| - 1] == ['0'] && ['0'][..0] == [];
      s
  }

  /** The length field: the decimal digits of `k` read back as hexadecimal
      digit pairs. */
  function LengthField(k: nat): (r: Option<seq<byte>>)
    ensures r.Some? <==> |LengthText(k)| % 2 == 0
    ensures r.Some? ==> |r.value| == |LengthText(k)| / 2
  {
    FromHexDigits(LengthText(k));
    FromHex(LengthText(k))
  }

  /** A one-digit length is sent as its own value. */
  lemma LengthFieldOneDigit(k: nat)
    requires k < 10
    ensures LengthField(k) == Some([k as bv8])
  {
    DecimalStringLength(k, 1);
    var s := LengthText(k);
    assert s == ['0', DecimalDigit(k)];
    FromHexPair('0', DecimalDigit(k));
  }

  /** A two-digit length is sent as the byte whose hexadecimal digits are its
      decimal digits: 10 goes out as 0x10, 99 as 0x99. */
  lemma LengthFieldTwoDigits(k: nat)
    requires 10 <= k < 100
    ensures LengthField(k) == Some([(16 * (k / 10) + k % 10) as bv8])
  {
    DecimalStringLength(k, 2);
    var s := LengthText(k);
    assert s == DecimalString(k);
    assert s[..1] == DecimalString(k / 10);
    assert DigitValue(s[0]) == k / 10;
    FromHexPair(s[0], s[1]);
    assert s == [s[0], s[1]];
  }

  /** A length below 100 is sent as one byte, its decimal digits read as
      hexadecimal. */
  lemma LengthFieldSmall(k: nat)
    requires k < 100
    ensures LengthField(k) == Some([(16 * (k / 10) + k % 10) as bv8])
  {
    if k < 10 {
      assert 16 * (k / 10) + k % 10 == k;
      LengthFieldOneDigit(k);
    } else {
      LengthFieldTwoDigits(k);
    }
  }

  /** A three-digit length leaves an odd digit out, and `fromhex` raises. */
  lemma LengthFieldThreeDigits(k: nat)
    requires 100 <= k < 1000
    ensures LengthField(k) == None
  {
    DecimalStringLength(k, 3);
    FromHexDigits(LengthText(k));
  }

  /** A four-digit length becomes two length bytes. */
  lemma LengthFieldFourDigits(k: nat)
    requires 1000 <= k < 10000
    ensures LengthField(k).Some? && |LengthField(k).value| == 2
  {
    assert Pow10(3) == 1000 && Pow10(4) == 10000;
    DecimalStringLength(k, 4);
    FromHexDigits(LengthText(k));
  }

  /** The frame for the given parts: the checksummed body, then the
      checksum's low byte and high byte. */
  function Assemble(length: seq<byte>, addr: seq<byte>, cmd: byte, data: seq<byte>): (frame: seq<byte>)
    ensures |frame| == |length| + |addr| + |data| + 3
  {
    var body := length + addr + [cmd] + data;
    body + [Lsb(Crc16(body)), Msb(Crc16(body))]
  }

  /** The request `sendCommand` builds for the reader address text
      `addrText`, command `cmd` and payload `payload`, or the error it raises
      first. Only the parts are worked out here; the checksum and its two
      bytes are `Assemble`, which `AssembleRequest` computes the way the
      driver does. */
  function BuildRequest(addrText: string, cmd: int, payload: seq<int>): (r: Result<seq<byte>, FrameError>)
    ensures r.Ok? <==>
      && FromHex(addrText).Some? && IsByteValue(cmd) && AllByteValues(payload)
      && |LengthText(CountedLength(addrText, payload))| % 2 == 0
  {
    match FromHex(addrText)
    case None => Err(BadAddress)
    case Some(addr) =>
      if !IsByteValue(cmd) then Err(CommandOutOfRange)
      else if !AllByteValues(payload) then Err(PayloadByteOutOfRange)
      else
        var c: seq<byte> := [cmd as bv8];
        var data := ToBytes(payload);
        match LengthField(|addr + c + data| + 2)
        case None => Err(LengthNotEncodable)
        case Some(length) => Ok(Assemble(length, addr, cmd as bv8, data))
  }

  /** What the request counts in its length field: every byte after it. */
  function CountedLength(addrText: string, payload: seq<int>): nat
    requires FromHex(addrText).Some?
  {
    |FromHex(addrText).value| + 1 + |payload| + 2
  }

  /** The request is `length ‖ addr ‖ cmd ‖ payload ‖ lsb ‖ msb` whether or
      not there is a payload, the checksum covers exactly the bytes before
      it, and its low byte goes first; building fails only in the four ways
      listed, checked in the driver's order. */
  lemma BuildRequestSpec(addrText: string, cmd: int, payload: seq<int>)
    ensures FromHex(addrText).None? ==> BuildRequest(addrText, cmd, payload) == Err(BadAddress)
    ensures FromHex(addrText).Some? && !IsByteValue(cmd) ==>
      BuildRequest(addrText, cmd, payload) == Err(CommandOutOfRange)
    ensures FromHex(addrText).Some? && IsByteValue(cmd) && !AllByteValues(payload) ==>
      BuildRequest(addrText, cmd, payload) == Err(PayloadByteOutOfRange)
    ensures FromHex(addrText).Some? && IsByteValue(cmd) && AllByteValues(payload) ==>
      match LengthField(CountedLength(addrText, payload))
      case None => BuildRequest(addrText, cmd, payload) == Err(LengthNotEncodable)
      case Some(length) =>
        BuildRequest(addrText, cmd, payload) ==
          Ok(Assemble(length, FromHex(addrText).value, cmd as bv8, ToBytes(payload)))
  {
    if FromHex(addrText).Some? && IsByteValue(cmd) && AllByteValues(payload) {
      var c: seq<byte> := [cmd as bv8];
      assert |FromHex(addrText).value + c + ToBytes(payload)| + 2 == CountedLength(addrText, payload);
    }
  }

  /** The tail of `sendCommand` once the parts are bytes: the checksum by
      `calculateCRC` over the parts (leaving the payload out when there is
      none), then the two halves of its hexdigest as bytes, low half
      first. Both branches give the frame `Assemble` describes. */
  method AssembleRequest(length: seq<byte>, addr: seq<byte>, cmd: byte, data: seq<byte>) returns (request: seq<byte>)
    ensures request == Assemble(length, addr, cmd, data)
  {
    var c := [cmd];
    var body := length + addr + c + data;
    var crc;
    if |data| > 0 {
      crc := CalculateCrc(length + addr + c + data);
    } else {
      assert length + addr + c == body;
      crc := CalculateCrc(length + addr + c);
    }
    HexDigestHalves(Crc16(body));
    var lsb := FromHex(crc[2..4]).value;
    var msb := FromHex(crc[0..2]).value;
    if |data| > 0 {
      request := length + addr + c + data + lsb + msb;
    } else {
      request := length + addr + c + lsb + msb;
      assert request == body + lsb + msb;
    }
  }

  /** Where each part sits in a built request: the length field, then the
      address bytes, the command and the payload. The length field's value
      counts exactly the bytes that follow it. */
  lemma RequestLayout(addrText: string, cmd: int, payload: seq<int>, r: seq<byte>)
    requires BuildRequest(addrText, cmd, payload) == Ok(r)
    ensures FromHex(addrText).Some? && LengthField(CountedLength(addrText, payload)).Some?
    ensures |r| == |LengthField(CountedLength(addrText, payload)).value| + CountedLength(addrText, payload)
    ensures LaidOut(r, LengthField(CountedLength(addrText, payload)).value, FromHex(addrText).value, cmd as bv8, ToBytes(payload))
  {
    RequestIsAssembled(addrText, cmd, payload);
    var k := CountedLength(addrText, payload);
    var length, addr, data := LengthField(k).value, FromHex(addrText).value, ToBytes(payload);
    AssembleLaidOut(length, addr, cmd as bv8, data, r);
  }

  /** `r` holds `length`, then `addr`, then `cmd`, then `data`, then two
      more bytes. */
  predicate LaidOut(r: seq<byte>, length: seq<byte>, addr: seq<byte>, cmd: byte, data: seq<byte>)
  {
    var n := |length|;
    var a := |addr|;
    && |r| == n + a + 1 + |data| + 2
    && r[..n] == length
    && r[n..n + a] == addr
    && r[n + a] == cmd
    && r[n + a + 1..|r| - 2] == data
  }

  lemma AssembleLaidOut(length: seq<byte>, addr: seq<byte>, cmd: byte, data: seq<byte>, r: seq<byte>)
    requires r == Assemble(length, addr, cmd, data)
    ensures LaidOut(r, length, addr, cmd, data)
  {
    AssembleLayout(length, addr, cmd, data, r);
  }

  /** The last two bytes of a built request are the checksum of everything
      before them, low byte first. */
  lemma RequestTrailer(addrText: string, cmd: int, payload: seq<int>, r: seq<byte>)
    requires BuildRequest(addrText, cmd, payload) == Ok(r)
    ensures |r| >= 2
    ensures r[|r| - 2] == Lsb(Crc16(r[..|r| - 2]))
    ensures r[|r| - 1] == Msb(Crc16(r[..|r| - 2]))
  {
    RequestIsAssembled(addrText, cmd, payload);
    var k := CountedLength(addrText, payload);
    var length, addr, data := LengthField(k).value, FromHex(addrText).value, ToBytes(payload);
    AssembleLayout(length, addr, cmd as bv8, data, r);
  }

  lemma RequestIsAssembled(addrText: string, cmd: int, payload: seq<int>)
    requires BuildRequest(addrText, cmd, payload).Ok?
    ensures LengthField(CountedLength(addrText, payload)).Some?
    ensures BuildRequest(addrText, cmd, payload).value ==
      Assemble(LengthField(CountedLength(addrText, payload)).value, FromHex(addrText).value, cmd as bv8, ToBytes(payload))
  {
    BuildRequestSpec(addrText, cmd, payload);
  }

  /** The same layout for any assembled frame. */
  lemma AssembleLayout(length: seq<byte>, addr: seq<byte>, cmd: byte, data: seq<byte>, r: seq<byte>)
    requires r == Assemble(length, addr, cmd, data)
    ensures var n := |length|;
      var a := |addr|;
      && r[..n] == length
      && r[n..n + a] == addr
      && r[n + a] == cmd
      && r[n + a + 1..|r| - 2] == data
      && r[|r| - 2] == Lsb(Crc16(r[..|r| - 2]))
      && r[|r| - 1] == Msb(Crc16(r[..|r| - 2]))
  {
    var body := length + addr + [cmd] + data;
    assert r[..|r| - 2] == body;
  }

  /** The building half of `sendCommand`, step by step: the address, the
      command and the payload as bytes, the length field, then the frame. */
  method MakeRequest(addrText: string, cmd: int, payload: seq<int>) returns (r: Result<seq<byte>, FrameError>)
    ensures r == BuildRequest(addrText, cmd, payload)
  {
    BuildRequestSpec(addrText, cmd, payload);
    var addr := FromHex(addrText);
    if addr.None? {
      return Err(BadAddress);
    }
    if !IsByteValue(cmd) {
      return Err(CommandOutOfRange);
    }
    if !AllByteValues(payload) {
      return Err(PayloadByteOutOfRange);
    }
    var c: seq<byte> := [cmd as bv8];
    var data := ToBytes(payload);
    assert |addr.value + c + data| + 2 == CountedLength(addrText, payload);
    var length := LengthField(|addr.value + c + data| + 2);
    if length.None? {
      return Err(LengthNotEncodable);
    }
    var request := AssembleRequest(length.value, addr.value, cmd as bv8, data);
    return Ok(request);
  }

  /** With a one-byte address and a payload short enough for a two-digit
      length, the request is the payload plus five bytes. */
  lemma RequestSize(addrText: string, cmd: int, payload: seq<int>)
    requires FromHex(addrText).Some? && |FromHex(addrText).value| == 1
    requires IsByteValue(cmd) && AllByteValues(payload) && |payload| <= 95
    ensures BuildRequest(addrText, cmd, payload).Ok?
    ensures |BuildRequest(addrText, cmd, payload).value| == |payload| + 5
  {
    BuildRequestSpec(addrText, cmd, payload);
    var k := CountedLength(addrText, payload);
    if k < 10 {
      LengthFieldOneDigit(k);
    } else {
      LengthFieldTwoDigits(k);
    }
  }

  /** With a one-byte address, a payload of 96 to 995 bytes makes a
      three-digit length and the request cannot be built. */
  lemma LongPayloadRejected(addrText: string, cmd: int, payload: seq<int>)
    requires FromHex(addrText).Some? && |FromHex(addrText).value| == 1
    requires IsByteValue(cmd) && AllByteValues(payload)
    requires 96 <= |payload| <= 995
    ensures BuildRequest(addrText, cmd, payload) == Err(LengthNotEncodable)
  {
    BuildRequestSpec(addrText, cmd, payload);
    LengthFieldThreeDigits(CountedLength(addrText, payload));
  }

  /** The checksum of a built request, taken over the whole request, is
      zero: the trailer is the checksum of everything before it. */
  lemma RequestResidueZero(addrText: string, cmd: int, payload: seq<int>)
    requires BuildRequest(addrText, cmd, payload).Ok?
    ensures Crc16(BuildRequest(addrText, cmd, payload).value) == 0
  {
    BuildRequestSpec(addrText, cmd, payload);
    var addr := FromHex(addrText).value;
    var length := LengthField(CountedLength(addrText, payload)).value;
    var body := length + addr + [cmd as bv8] + ToBytes(payload);
    CrcWithTrailerIsZero(body);
    assert Assemble(length, addr, cmd as bv8, ToBytes(payload)) == body + [Lsb(Crc16(body)), Msb(Crc16(body))];
  }

  /** Length 4, address 0 and command 1 with no payload make the frame
      `04 00 01 DB 4B`. */
  lemma InventoryAssembled(length: seq<byte>, addr: seq<byte>, cmd: byte, data: seq<byte>)
    requires length == [0x04] && addr == [0x00] && cmd == 0x01 && data == []
    ensures Assemble(length, addr, cmd, data) == [0x04, 0x00, 0x01, 0xDB, 0x4B]
  {
    var body := length + addr + [cmd] + data;
    assert body == [0x04, 0x00, 0x01];
    InventoryCrc();
    assert Lsb(0x4BDB) == 0xDB && Msb(0x4BDB) == 0x4B;
  }

  /** The checksum of `04 00 01` is 0x4BDB. */
  lemma InventoryCrc()
    ensures Crc16([0x04, 0x00, 0x01]) == 0x4BDB
  {
    var d: seq<byte> := [0x04, 0x00, 0x01];
    assert |d| == 3 && d[3..] == [];
    ByteStepFeed(0xFFFF, 0x04);
    ByteStepFeed(0x49A3, 0x00);
    ByteStepFeed(0x97D8, 0x01);
    assert Update(0xFFFF, d) == Update(0x49A3, d[1..]);
    assert Update(0x49A3, d[1..]) == Update(0x97D8, d[2..]);
    assert Update(0x97D8, d[2..]) == Update(0x4BDB, d[3..]);
  }
}

=== FILE: hex.dfy ===
/** Byte and text conversions the reader is built on: `binascii.hexlify`,
    `bytearray.fromhex`, `str` of a non-negative integer and `int(s, 16)`,
    as Python 3 defines them for the inputs the driver gives them. */
module Hex {

  /** One octet, as held in a Python `bytes` or `bytearray`. */
  type byte = bv8

  datatype Option<+T> = None | Some(value: T)

  /** The outcome of an operation that may raise: a value, or the error it
      raises. */
  datatype Result<+T, +E> = Ok(value: T) | Err(error: E)

  predicate IsHexDigit(c: char) {
    '0' <= c <= '9' || 'a' <= c <= 'f' || 'A' <= c <= 'F'
  }

  predicate IsDecimalDigit(c: char) {
    '0' <= c <= '9'
  }

  /** The ASCII whitespace that `bytearray.fromhex` skips between pairs:
      space, tab, line feed, vertical tab, form feed, carriage return. */
  predicate IsAsciiSpace(c: char) {
    c == ' ' || 9 <= c as int <= 13
  }

  /** The value of one hexadecimal digit, in either case. */
  function DigitValue(c: char): (v: nat)
    requires IsHexDigit(c)
    ensures v < 16
    ensures IsDecimalDigit(c) ==> v == c as int - '0' as int
  {
    if '0' <= c <= '9' then c as int - '0' as int
    else if 'a' <= c <= 'f' then c as int - 'a' as int + 10
    else c as int - 'A' as int + 10
  }

  /** The lower-case digit `hexlify` writes for a nibble. */
  function LowerDigit(n: nat): (c: char)
    requires n < 16
    ensures IsHexDigit(c) && DigitValue(c) == n
    ensures !('A' <= c <= 'F')
  {
    if n < 10 then ('0' as int + n) as char else ('a' as int + n - 10) as char
  }

  /** The upper-case digit `'%02X'` writes for a nibble. */
  function UpperDigit(n: nat): (c: char)
    requires n < 16
    ensures IsHexDigit(c) && DigitValue(c) == n
    ensures !('a' <= c <= 'f')
  {
    if n < 10 then ('0' as int + n) as char else ('A' as int + n - 10) as char
  }

  /** The decimal digit character for 0..9. */
  function DecimalDigit(n: nat): (c: char)
    requires n < 10
    ensures IsDecimalDigit(c) && IsHexDigit(c) && DigitValue(c) == n
  {
    ('0' as int + n) as char
  }

  /** The two lower-case characters `hexlify` writes for one byte. */
  function ByteHex(b: byte): (s: string)
    ensures |s| == 2 && IsHexDigit(s[0]) && IsHexDigit(s[1])
    ensures !('A' <= s[0] <= 'F') && !('A' <= s[1] <= 'F')
    ensures DigitValue(s[0]) * 16 + DigitValue(s[1]) == b as int
  {
    [LowerDigit((b >> 4) as int), LowerDigit((b & 0xF) as int)]
  }

  /** The two upper-case characters `'%02X'` writes for one byte. */
  function UpperByteHex(b: byte): (s: string)
    ensures |s| == 2 && IsHexDigit(s[0]) && IsHexDigit(s[1])
    ensures !('a' <= s[0] <= 'f') && !('a' <= s[1] <= 'f')
    ensures DigitValue(s[0]) * 16 + DigitValue(s[1]) == b as int
  {
    [UpperDigit((b >> 4) as int), UpperDigit((b & 0xF) as int)]
  }

  /** The byte a pair of hexadecimal digits stands for. */
  function PairByte(hi: char, lo: char): byte
    requires IsHexDigit(hi) && IsHexDigit(lo)
  {
    (DigitValue(hi) * 16 + DigitValue(lo)) as bv8
  }

  lemma PairByteHex(b: byte)
    ensures PairByte(ByteHex(b)[0], ByteHex(b)[1]) == b
  {
    var s := ByteHex(b);
    assert DigitValue(s[0]) * 16 + DigitValue(s[1]) == b as int;
  }

  /** Two bytes as `'%04X'` writes the 16-bit value they make, high byte
      first. */
  function UpperWordHex(hi: byte, lo: byte): (s: string)
    ensures |s| == 4 && forall i :: 0 <= i < 4 ==> IsHexDigit(s[i]) && !('a' <= s[i] <= 'f')
    ensures HexValue(s) == 256 * hi as int + lo as int
  {
    var h, l := UpperByteHex(hi), UpperByteHex(lo);
    var s := h + l;
    assert s[0] == h[0] && s[1] == h[1] && s[2] == l[0] && s[3] == l[1];
    HexValueFour(s);
    s
  }

  /** The value of four hexadecimal digits, read as two bytes. */
  lemma HexValueFour(s: string)
    requires |s| == 4 && forall i :: 0 <= i < 4 ==> IsHexDigit(s[i])
    ensures HexValue(s) ==
      (DigitValue(s[0]) * 16 + DigitValue(s[1])) * 256 + DigitValue(s[2]) * 16 + DigitValue(s[3])
  {
    assert s[..3][..2][..1][..0] == [];
    assert s[..3][..2] == s[..2] && s[..2][..1] == s[..1];
    assert HexValue(s[..1]) == DigitValue(s[0]);
    assert HexValue(s[..2]) == DigitValue(s[0]) * 16 + DigitValue(s[1]);
    assert HexValue(s[..3]) == HexValue(s[..2]) * 16 + DigitValue(s[2]);
  }

  lemma PairByteUpperHex(b: byte)
    ensures PairByte(UpperByteHex(b)[0], UpperByteHex(b)[1]) == b
  {
    var s := UpperByteHex(b);
    assert DigitValue(s[0]) * 16 + DigitValue(s[1]) == b as int;
  }

  /** `binascii.hexlify`: two lower-case hexadecimal digits per byte. */
  function Hexlify(bs: seq<byte>): (s: string)
    ensures |s| == 2 * |bs|
    ensures forall i :: 0 <= i < |s| ==> IsHexDigit(s[i]) && !IsAsciiSpace(s[i])
    ensures forall i :: 0 <= i < |s| ==> !('A' <= s[i] <= 'F')
  {
    if bs == [] then [] else ByteHex(bs[0]) + Hexlify(bs[1..])
  }

  lemma {:induction false} HexlifyAppend(a: seq<byte>, b: seq<byte>)
    ensures Hexlify(a + b) == Hexlify(a) + Hexlify(b)
  {
    if a == [] {
      assert a + b == b;
    } else {
      assert (a + b)[1..] == a[1..] + b;
      HexlifyAppend(a[1..], b);
    }
  }

  /** Hexlifying a slice of bytes is slicing the hexlified text at twice the
      offsets. */
  lemma {:induction false} HexlifySlice(bs: seq<byte>, i: nat, j: nat)
    requires i <= j <= |bs|
    ensures Hexlify(bs[i..j]) == Hexlify(bs)[2 * i..2 * j]
  {
    assert bs == bs[..i] + bs[i..j] + bs[j..];
    HexlifyAppend(bs[..i] + bs[i..j], bs[j..]);
    HexlifyAppend(bs[..i], bs[i..j]);
  }

  lemma HexlifyOne(b: byte)
    ensures Hexlify([b]) == ByteHex(b)
  {
    assert Hexlify([b]) == ByteHex(b) + Hexlify([]);
  }

  /** `bytearray.fromhex`: ASCII whitespace before a pair is skipped, each
      pair of hexadecimal digits (either case) gives one byte, and anything
      else (an odd digit out, a non-hex character) raises `ValueError`,
      modelled as `None`. */
  function FromHex(s: string): (r: Option<seq<byte>>)
    ensures r.Some? ==> 2 * |r.value| <= |s|
    decreases |s|
  {
    if s == [] then Some([])
    else if IsAsciiSpace(s[0]) then FromHex(s[1..])
    else if |s| < 2 || !IsHexDigit(s[0]) || !IsHexDigit(s[1]) then None
    else match FromHex(s[2..])
      case None => None
      case Some(rest) => Some([PairByte(s[0], s[1])] + rest)
  }

  /** `fromhex` undoes `hexlify`. */
  lemma {:induction false} FromHexHexlify(bs: seq<byte>)
    ensures FromHex(Hexlify(bs)) == Some(bs)
  {
    if bs != [] {
      var s := Hexlify(bs);
      assert s[2..] == Hexlify(bs[1..]);
      FromHexHexlify(bs[1..]);
      PairByteHex(bs[0]);
      assert [bs[0]] + bs[1..] == bs;
    }
  }

  /** On a string of hex digits only, `fromhex` succeeds exactly when the
      length is even, and gives one byte per pair. */
  lemma {:induction false} FromHexDigits(s: string)
    requires forall i :: 0 <= i < |s| ==> IsHexDigit(s[i])
    ensures FromHex(s).Some? <==> |s| % 2 == 0
    ensures FromHex(s).Some? ==> |FromHex(s).value| == |s| / 2
    ensures FromHex(s).Some? ==>
      forall i :: 0 <= i < |s| / 2 ==> FromHex(s).value[i] == PairByte(s[2 * i], s[2 * i + 1])
    decreases |s|
  {
    if s != [] {
      assert !IsAsciiSpace(s[0]);
      if |s| >= 2 {
        var t := s[2..];
        FromHexDigits(t);
        if |s| % 2 == 0 {
          var r := FromHex(s).value;
          assert r == [PairByte(s[0], s[1])] + FromHex(t).value;
          forall i | 1 <= i < |s| / 2
            ensures r[i] == PairByte(s[2 * i], s[2 * i + 1])
          {
            assert t[2 * (i - 1)] == s[2 * i] && t[2 * (i - 1) + 1] == s[2 * i + 1];
          }
        }
      }
    }
  }

  lemma FromHexPair(a: char, b: char)
    requires IsHexDigit(a) && IsHexDigit(b)
    ensures FromHex([a, b]) == Some([PairByte(a, b)])
  {
    assert !IsAsciiSpace(a);
    assert [a, b][2..] == [];
    assert FromHex([a, b][2..]) == Some([]);
    assert [PairByte(a, b)] + [] == [PairByte(a, b)];
  }

  /** The value of a run of hexadecimal digits, most significant first. */
  function HexValue(s: string): (v: nat)
    requires forall i :: 0 <= i < |s| ==> IsHexDigit(s[i])
    decreases |s|
  {
    if s == [] then 0 else HexValue(s[..|s| - 1]) * 16 + DigitValue(s[|s| - 1])
  }

  /** `int(s, 16)` for the text `hexlify` produces: the empty string raises
      `ValueError` (`None`); a run of hex digits gives its value. */
  function ParseHexInt(s: string): (r: Option<nat>)
    ensures r.Some? <==> s != [] && forall i :: 0 <= i < |s| ==> IsHexDigit(s[i])
  {
    if s != [] && forall i :: 0 <= i < |s| ==> IsHexDigit(s[i]) then Some(HexValue(s)) else None
  }

  lemma ParseHexIntByte(b: byte)
    ensures ParseHexInt(ByteHex(b)) == Some(b as int)
  {
    var s := ByteHex(b);
    assert s[..1][..0] == [];
    assert HexValue(s[..1]) == DigitValue(s[0]);
    assert HexValue(s) == DigitValue(s[0]) * 16 + DigitValue(s[1]);
  }

  /** The value of a run of decimal digits, most significant first. */
  function DecimalValue(s: string): (v: nat)
    requires forall i :: 0 <= i < |s| ==> IsDecimalDigit(s[i])
    decreases |s|
  {
    if s == [] then 0
    else
      var last := s[|s| - 1];
      assert IsDecimalDigit(last);
      DecimalValue(s[..|s| - 1]) * 10 + DigitValue(last)
  }

  function Pow10(k: nat): (p: nat)
    ensures p >= 1
  {
    if k == 0 then 1 else 10 * Pow10(k - 1)
  }

  /** `str(n)` for a non-negative integer: its decimal digits, no leading
      zero, as many digits as the magnitude of `n` needs. */
  function DecimalString(n: nat): (s: string)
    ensures |s| >= 1
    ensures forall i :: 0 <= i < |s| ==> IsDecimalDigit(s[i])
    ensures DecimalValue(s) == n
    ensures n < Pow10(|s|)
    ensures |s| > 1 ==> Pow10(|s| - 1) <= n
  {
    if n < 10 then [DecimalDigit(n)]
    else
      var s := DecimalString(n / 10) + [DecimalDigit(n % 10)];
      assert s[..|s| - 1] == DecimalString(n / 10);
      s
  }

  /** The number of digits `str` writes, by magnitude. */
  lemma DecimalStringLength(n: nat, k: nat)
    requires k >= 1 && (k > 1 ==> Pow10(k - 1) <= n) && n < Pow10(k)
    ensures |DecimalString(n)| == k
  {
    var s := DecimalString(n);
    if |s| < k {
      Pow10Monotone(|s|, k - 1);
    } else if |s| > k {
      Pow10Monotone(k, |s| - 1);
    }
  }

  lemma {:induction false} Pow10Monotone(i: nat, j: nat)
    requires i <= j
    ensures Pow10(i) <= Pow10(j)
    decreases j - i
  {
    if i < j {
      Pow10Monotone(i, j - 1);
    }
  }
}

=== FILE: reader.dfy ===
/** The reader session: its configuration, the check `connect` applies to
    it, and the inventory commands, which send one request and pick the
    tags out of the reply. The connection is modelled by the frames written
    to it and the buffers it will hand back. */
module Reader {
  import opened Hex
  import opened Frame
  import opened Response
  import opened Tags

  /** EPC C1 G2 (ISO 18000-6C) commands the inventory operations send. */
  const InventoryCmd: int := 0x01
  const InventorySingleCmd: int := 0x0F

  /** `BAUDRATE`: the one supported line speed, 5600, and the code the
      reader knows it by. */
  const Baudrates: map<int, int> := map[5600 := 0]

  const DefaultCommunication := "socket"
  const DefaultAddr := "00"
  const DefaultBaudrate := 0

  /** The two messages `InvalidConfig` is raised with. */
  datatype ConfigError = BadCommunication | BadBaudrate

  /** What makes a session operation raise. */
  datatype Failure =
    | BuildFailed(reason: FrameError)    // `sendCommand` could not build the request
    | Timeout                            // no reply before the deadline
    | ParseFailed(why: ParseError)       // `getResponse(parse=True)` on an empty reply

  /** The communication kinds the driver can open. */
  predicate IsLinkKind(communication: string) {
    communication == "socket" || communication == "serial"
  }

  /** `validateConfig` as a value: the error it raises, if any. The
      communication is checked first; the baud rate is looked up among the
      table's values, not its keys. */
  function CheckConfig(communication: string, baudrate: int): (r: Option<ConfigError>)
    ensures r.None? <==> IsLinkKind(communication) && baudrate in Baudrates.Values
    ensures r == Some(BadCommunication) <==> !IsLinkKind(communication)
  {
    assert communication in ["socket", "serial"] <==> IsLinkKind(communication);
    if communication !in ["socket", "serial"] then Some(BadCommunication)
    else if baudrate !in Baudrates.Values then Some(BadBaudrate)
    else None
  }

  lemma BaudrateValues()
    ensures Baudrates.Values == {0}
  {
    assert Baudrates[5600] == 0;
  }

  /** A configuration is accepted exactly when the communication is
      "socket" or "serial" and the baud rate is the code 0; a bad
      communication is reported whatever the baud rate, and the line speed
      5600 itself is refused. */
  lemma CheckConfigSpec(communication: string, baudrate: int)
    ensures CheckConfig(communication, baudrate).None? <==> IsLinkKind(communication) && baudrate == 0
    ensures !IsLinkKind(communication) ==> CheckConfig(communication, baudrate) == Some(BadCommunication)
    ensures IsLinkKind(communication) && baudrate != 0 ==> CheckConfig(communication, baudrate) == Some(BadBaudrate)
    ensures IsLinkKind(communication) ==> CheckConfig(communication, 5600) == Some(BadBaudrate)
  {
    BaudrateValues();
    assert communication in ["socket", "serial"] <==> IsLinkKind(communication);
  }

  /** The defaults pass the check. */
  lemma DefaultsValid()
    ensures CheckConfig(DefaultCommunication, DefaultBaudrate).None?
  {
    CheckConfigSpec(DefaultCommunication, DefaultBaudrate);
  }

  /** What `inventory` returns for the reply `response`: the tag list
      `parseTag` gives with `parse_all=True`, which is never `None`. */
  function InventoryResult(response: seq<byte>): (tags: seq<string>)
    ensures forall t :: t in tags ==> |t| == TagChars && t[..2] == "e2"
  {
    var text := Hexlify(response);
    ParseTagAll(text);
    var tags := ParseTag(text, true).tags;
    assert forall t :: t in tags ==> |t| == TagChars && t[..2] == "e2" by {
      forall t | t in tags
        ensures |t| == TagChars && t[..2] == "e2"
      {
        ParseTagAllShape(text, t);
      }
    }
    tags
  }

  /** What `singleInventory` returns for the reply `response`: the tag when
      exactly one was found, `None` when there were none or several. */
  function SingleInventoryResult(response: seq<byte>): (r: Option<string>)
    ensures r.Some? <==> |InventoryResult(response)| == 1
    ensures r.Some? ==> r.value == InventoryResult(response)[0] && |r.value| == TagChars
  {
    var tags := InventoryResult(response);
    if |tags| == 1 then Some(tags[0]) else None
  }

  /** A reply with no "e200" in its hex text gives no tags, and so no single
      tag. */
  lemma NoMarkerNoTags(response: seq<byte>)
    requires Index(Hexlify(response), Marker).None?
    ensures InventoryResult(response) == []
    ensures SingleInventoryResult(response) == None
  {
    ParseTagAll(Hexlify(response));
  }

  /** Whether a read ends with a buffer rather than at the deadline. A
      serial port is opened with a timeout, after which `readline` returns
      what it has, possibly nothing; a socket's `recv` needs something to
      return and otherwise raises when the deadline passes. */
  predicate Answers(communication: string, incoming: seq<seq<byte>>) {
    communication == "serial" || (communication == "socket" && incoming != [])
  }

  /** The buffer a read returns: the next one pending, or an empty one from
      a silent serial line. */
  function NextBuffer(incoming: seq<seq<byte>>): seq<byte> {
    if incoming == [] then [] else incoming[0]
  }

  /** What is still pending after a read. */
  function Remaining(incoming: seq<seq<byte>>): seq<seq<byte>> {
    if incoming == [] then [] else incoming[1..]
  }

  /** A reply that is one tag's 12 bytes, starting `E2 00`, followed by
      the two checksum bytes yields exactly that tag, as lower-case hex
      text, from both inventory commands. */
  lemma InventoryFindsTag(tb: seq<byte>, lo: byte, hi: byte)
    requires |tb| == 12 && tb[0] == 0xE2 && tb[1] == 0x00
    ensures InventoryResult(tb + [lo, hi]) == [Hexlify(tb)]
    ensures SingleInventoryResult(tb + [lo, hi]) == Some(Hexlify(tb))
  {
    var h := Hexlify(tb);
    var text := Hexlify(tb + [lo, hi]);
    HexlifyAppend(tb, [lo, hi]);
    assert text[..24] == h;
    MarkerAtStart(tb);
    assert text[0..4] == h[0..4] == Marker;
    assert Index(text, Marker) == Some(0);
    assert Region(text, 0) == h;
    assert MatchesAt(h, 0) by {
      assert h[0..2] == "e2";
    }
    assert ScanFrom(h, 0) == [0];
    assert h[0..24] == h;
    assert FindAll(h) == [h[0..24]] == [h];
    assert ParseTag(text, true) == TagList(FindAll(Region(text, 0)));
    assert InventoryResult(tb + [lo, hi]) == ParseTag(text, true).tags;
  }

  /** A tag starting `E2 00` hexlifies to text starting "e200". */
  lemma MarkerAtStart(tb: seq<byte>)
    requires |tb| >= 2 && tb[0] == 0xE2 && tb[1] == 0x00
    ensures Hexlify(tb)[0..4] == Marker
  {
    HexlifySlice(tb, 0, 2);
    assert tb[0..2] == [0xE2] + [0x00];
    HexlifyAppend([0xE2], [0x00]);
    HexlifyOne(0xE2);
    HexlifyOne(0x00);
    assert ByteHex(0xE2) == "e2" && ByteHex(0x00) == "00";
  }

  /** One reader session. */
  class RFIDReader {
    var communication: string
    var addr: string
    var baudrate: int
    /** Every request written to the connection, oldest first. */
    var sent: seq<seq<byte>>
    /** The buffers the connection will hand back, in order. */
    var incoming: seq<seq<byte>>

    /** `RFIDReader(*args, **kwargs)`: the first positional argument sets the
        communication, the `addr` and `baudrate` keywords the rest; anything
        not given keeps the class default. */
    constructor (communication: Option<string>, addr: Option<string>, baudrate: Option<int>)
      ensures this.communication == if communication.Some? then communication.value else DefaultCommunication
      ensures this.addr == if addr.Some? then addr.value else DefaultAddr
      ensures this.baudrate == if baudrate.Some? then baudrate.value else DefaultBaudrate
      ensures sent == [] && incoming == []
    {
      this.communication := if communication.Some? then communication.value else DefaultCommunication;
      this.addr := if addr.Some? then addr.value else DefaultAddr;
      this.baudrate := if baudrate.Some? then baudrate.value else DefaultBaudrate;
      sent := [];
      incoming := [];
    }

    /** The device answering: a buffer arrives on the connection. */
    method Deliver(buffer: seq<byte>)
      modifies this`incoming
      ensures incoming == old(incoming) + [buffer]
    {
      incoming := incoming + [buffer];
    }

    /** `validateConfig`: the error it raises for this session's settings. */
    method ValidateConfig() returns (error: Option<ConfigError>)
      ensures error.None? <==> IsLinkKind(communication) && baudrate == 0
      ensures error == CheckConfig(communication, baudrate)
    {
      CheckConfigSpec(communication, baudrate);
      if communication != "socket" && communication != "serial" {
        error := Some(BadCommunication);
      } else if baudrate != 0 {
        BaudrateValues();
        error := Some(BadBaudrate);
      } else {
        BaudrateValues();
        error := None;
      }
    }

    /** `sendCommand`: build the request, then write it when the
        communication is one the driver knows. */
    method SendCommand(cmd: int, payload: seq<int>) returns (r: Result<seq<byte>, FrameError>)
      modifies this`sent
      ensures r == BuildRequest(addr, cmd, payload)
      ensures sent == if r.Ok? && IsLinkKind(communication) then old(sent) + [r.value] else old(sent)
    {
      r := MakeRequest(addr, cmd, payload);
      if r.Ok? && (communication == "socket" || communication == "serial") {
        sent := sent + [r.value];
      }
    }

    /** `getResponse()`: wait for the next buffer. A serial line that stays
        silent gives an empty buffer when the port's timeout expires; a
        socket with nothing to deliver, or a communication the driver does
        not know, ends at the deadline. */
    method GetResponse() returns (r: Result<seq<byte>, Failure>)
      modifies this`incoming
      ensures r.Ok? <==> Answers(communication, old(incoming))
      ensures r.Ok? ==> r.value == NextBuffer(old(incoming)) && incoming == Remaining(old(incoming))
      ensures communication == "serial" && old(incoming) == [] ==> r == Ok([])
      ensures r.Err? ==> r == Err(Timeout) && incoming == old(incoming)
    {
      var data: Option<seq<byte>> := None;
      while data.None?
        invariant data.None? ==> incoming == old(incoming)
        invariant data.Some? ==>
          Answers(communication, old(incoming))
          && data.value == NextBuffer(old(incoming)) && incoming == Remaining(old(incoming))
        decreases if data.None? then 1 else 0
      {
        if communication == "socket" {
          if incoming == [] {
            return Err(Timeout);
          }
          data := Some(incoming[0]);
          incoming := incoming[1..];
        } else if communication == "serial" {
          if incoming == [] {
            data := Some([]);
          } else {
            data := Some(incoming[0]);
            incoming := incoming[1..];
          }
        } else {
          return Err(Timeout);
        }
      }
      return Ok(data.value);
    }

    /** `getResponse(parse=True)`: the next buffer cut into its fields. */
    method GetParsedResponse() returns (r: Result<Reply, Failure>)
      modifies this`incoming
      ensures !Answers(communication, old(incoming)) ==> r == Err(Timeout) && incoming == old(incoming)
      ensures Answers(communication, old(incoming)) ==>
        && incoming == Remaining(old(incoming))
        && (if NextBuffer(old(incoming)) == [] then r == Err(ParseFailed(EmptyReply))
            else r.Ok? && r.value == Parse(NextBuffer(old(incoming))).value)
    {
      var data := GetResponse();
      if data.Err? {
        return Err(data.error);
      }
      var parsed := Parse(data.value);
      if parsed.Err? {
        return Err(ParseFailed(parsed.error));
      }
      return Ok(parsed.value);
    }

    /** One poll for the inventory commands: send `cmd` with no payload and
        read the tags from the reply. `parseTag` with `parse_all=True` never
        gives `None`, so the loop body runs once. */
    method Poll(cmd: int) returns (r: Result<seq<string>, Failure>)
      modifies this`sent, this`incoming
      ensures BuildRequest(addr, cmd, []).Err? ==>
        r == Err(BuildFailed(BuildRequest(addr, cmd, []).error)) && sent == old(sent) && incoming == old(incoming)
      ensures BuildRequest(addr, cmd, []).Ok? && !Answers(communication, old(incoming)) ==>
        r == Err(Timeout) && incoming == old(incoming)
        && sent == (if IsLinkKind(communication) then old(sent) + [BuildRequest(addr, cmd, []).value] else old(sent))
      ensures BuildRequest(addr, cmd, []).Ok? && Answers(communication, old(incoming)) ==>
        && r == Ok(InventoryResult(NextBuffer(old(incoming))))
        && sent == old(sent) + [BuildRequest(addr, cmd, []).value]
        && incoming == Remaining(old(incoming))
    {
      var data: TagResult := NoTag;
      while data.NoTag?
        invariant data.NoTag? ==> sent == old(sent) && incoming == old(incoming)
        invariant !data.NoTag? ==>
          BuildRequest(addr, cmd, []).Ok? && Answers(communication, old(incoming))
          && data == TagList(InventoryResult(NextBuffer(old(incoming))))
          && sent == old(sent) + [BuildRequest(addr, cmd, []).value]
          && incoming == Remaining(old(incoming))
        decreases if data.NoTag? then 1 else 0
      {
        var request := SendCommand(cmd, []);
        if request.Err? {
          return Err(BuildFailed(request.error));
        }
        var response := GetResponse();
        if response.Err? {
          return Err(response.error);
        }
        data := ParseTag(Hexlify(response.value), true);
      }
      return Ok(data.tags);
    }

    /** `inventory` (and `scantags`): every tag in the reply to one
        INVENTORY request; nothing at all from a silent serial line. */
    method Inventory() returns (r: Result<seq<string>, Failure>)
      modifies this`sent, this`incoming
      ensures BuildRequest(addr, InventoryCmd, []).Err? ==>
        r == Err(BuildFailed(BuildRequest(addr, InventoryCmd, []).error)) && sent == old(sent) && incoming == old(incoming)
      ensures BuildRequest(addr, InventoryCmd, []).Ok? && !Answers(communication, old(incoming)) ==>
        r == Err(Timeout) && incoming == old(incoming)
        && sent == (if IsLinkKind(communication) then old(sent) + [BuildRequest(addr, InventoryCmd, []).value] else old(sent))
      ensures BuildRequest(addr, InventoryCmd, []).Ok? && Answers(communication, old(incoming)) ==>
        && r == Ok(InventoryResult(NextBuffer(old(incoming))))
        && sent == old(sent) + [BuildRequest(addr, InventoryCmd, []).value]
        && incoming == Remaining(old(incoming))
      ensures BuildRequest(addr, InventoryCmd, []).Ok? && communication == "serial" && old(incoming) == [] ==> r == Ok([])
    {
      NoMarkerNoTags([]);
      r := Poll(InventoryCmd);
    }

    /** `singleInventory` (and `scantag`): the tag in the reply to one
        INVENTORY_SINGLE request when it holds exactly one, else `None`. */
    method SingleInventory() returns (r: Result<Option<string>, Failure>)
      modifies this`sent, this`incoming
      ensures BuildRequest(addr, InventorySingleCmd, []).Err? ==>
        r == Err(BuildFailed(BuildRequest(addr, InventorySingleCmd, []).error)) && sent == old(sent) && incoming == old(incoming)
      ensures BuildRequest(addr, InventorySingleCmd, []).Ok? && !Answers(communication, old(incoming)) ==>
        r == Err(Timeout) && incoming == old(incoming)
        && sent == (if IsLinkKind(communication) then old(sent) + [BuildRequest(addr, InventorySingleCmd, []).value] else old(sent))
      ensures BuildRequest(addr, InventorySingleCmd, []).Ok? && Answers(communication, old(incoming)) ==>
        && r == Ok(SingleInventoryResult(NextBuffer(old(incoming))))
        && sent == old(sent) + [BuildRequest(addr, InventorySingleCmd, []).value]
        && incoming == Remaining(old(incoming))
      ensures BuildRequest(addr, InventorySingleCmd, []).Ok? && communication == "serial" && old(incoming) == [] ==> r == Ok(None)
    {
      NoMarkerNoTags([]);
      var tags := Poll(InventorySingleCmd);
      if tags.Err? {
        return Err(tags.error);
      }
      var data := tags.value;
      return Ok(if |data| == 1 then Some(data[0]) else None);
    }
  }

  /** The default address text "00" is the address byte 0. */
  lemma DefaultAddrByte()
    ensures FromHex(DefaultAddr) == Some([0x00])
  {
    FromHexPair('0', '0');
  }

  /** The INVENTORY request at address 0 (the default "00") is
      `04 00 01 DB 4B`: length 4, address 0, command 1, then the checksum
      0x4BDB low byte first. */
  lemma InventoryFrame(addrText: string)
    requires FromHex(addrText) == Some([0x00])
    ensures BuildRequest(addrText, InventoryCmd, []) == Ok([0x04, 0x00, 0x01, 0xDB, 0x4B])
  {
    var payload: seq<int> := [];
    var k := CountedLength(addrText, payload);
    assert k == 4;
    LengthFieldOneDigit(k);
    var length: seq<byte> := [k as bv8];
    var data := ToBytes(payload);
    assert data == [];
    BuildRequestSpec(addrText, InventoryCmd, payload);
    var addr := FromHex(addrText).value;
    assert BuildRequest(addrText, InventoryCmd, payload) == Ok(Assemble(length, addr, InventoryCmd as bv8, data));
    InventoryAssembled(length, addr, InventoryCmd as bv8, data);
  }
}

=== FILE: response.dfy ===
/** The parsed form of a reader's reply (`getResponse(parse=True)`): the
    received bytes are hexlified and the text is cut at fixed offsets. The
    checksum at the end is split out but never checked. */
module Response {
  import opened Hex
  import opened Crc
  import opened Frame

  /** Python's `s[start:stop]`: a negative bound counts from the end, and
      both bounds are clamped to the sequence. */
  function Clamp(i: int, n: nat): (k: nat)
    ensures k <= n
    ensures 0 <= i <= n ==> k == i
    ensures -(n as int) <= i < 0 ==> k == n + i
    ensures i > n ==> k == n
    ensures i < -(n as int) ==> k == 0
  {
    if i < 0 then (if i + n < 0 then 0 else i + n)
    else if i > n then n
    else i
  }

  function Slice<T>(s: seq<T>, start: int, stop: int): (r: seq<T>)
    ensures Clamp(start, |s|) < Clamp(stop, |s|) ==> |r| == Clamp(stop, |s|) - Clamp(start, |s|)
    ensures Clamp(start, |s|) >= Clamp(stop, |s|) ==> r == []
    ensures forall k :: 0 <= k < |r| ==> r[k] == s[Clamp(start, |s|) + k]
  {
    var i := Clamp(start, |s|);
    var j := Clamp(stop, |s|);
    if i < j then s[i..j] else []
  }

  /** The dictionary `getResponse` returns, keyed `len`, `addr`, `reCmd`,
      `data`, `lsb`, `msb`. */
  datatype Reply = Reply(len: nat, addr: string, reCmd: string, data: string, lsb: string, msb: string)

  /** `int(text[0:2], 16)` raises on an empty reply. */
  datatype ParseError = EmptyReply

  /** The `parse=True` branch of `getResponse` for a received buffer `raw`.
      The entries are evaluated in order, and only the first can raise. */
  function Parse(raw: seq<byte>): (r: Result<Reply, ParseError>)
    ensures r.Err? <==> raw == []
  {
    var text := Hexlify(raw);
    match ParseHexInt(Slice(text, 0, 2))
    case None => Err(EmptyReply)
    case Some(len) =>
      Ok(Reply(len, Slice(text, 2, 4), Slice(text, 4, 6), Slice(text, 6, -4),
               Slice(text, -4, -2), Slice(text, -2, |text|)))
  }

  /** Parsing fails exactly on an empty buffer, and otherwise `len` is the
      value of the first byte. */
  lemma ParseSucceeds(raw: seq<byte>)
    ensures Parse(raw).Ok? <==> |raw| > 0
    ensures Parse(raw).Ok? ==> Parse(raw).value.len == raw[0] as int
  {
    if |raw| > 0 {
      HexlifySlice(raw, 0, 1);
      HexlifyOne(raw[0]);
      assert raw[0..1] == [raw[0]];
      ParseHexIntByte(raw[0]);
    } else {
      assert Slice(Hexlify(raw), 0, 2) == [];
    }
  }

  /** For a buffer of at least five bytes each field is the hex text of the
      bytes at its place: `addr` byte 1, `reCmd` byte 2, `data` bytes 3 to
      n-3, `lsb` byte n-2 and `msb` byte n-1. */
  lemma ParseFields(raw: seq<byte>)
    requires |raw| >= 5
    ensures Parse(raw) == Ok(Reply(raw[0] as int, ByteHex(raw[1]), ByteHex(raw[2]),
                                   Hexlify(raw[3..|raw| - 2]), ByteHex(raw[|raw| - 2]),
                                   ByteHex(raw[|raw| - 1])))
  {
    var n := |raw|;
    var text := Hexlify(raw);
    ParseShape(raw);
    ByteField(raw, 1);
    ByteField(raw, 2);
    DataField(raw);
    ByteField(raw, n - 2);
    ByteField(raw, n - 1);
    TailSlices(text);
  }

  lemma ParseShape(raw: seq<byte>)
    requires |raw| > 0
    ensures var text := Hexlify(raw);
      Parse(raw) == Ok(Reply(raw[0] as int, Slice(text, 2, 4), Slice(text, 4, 6), Slice(text, 6, -4),
                             Slice(text, -4, -2), Slice(text, -2, |text|)))
  {
    ParseSucceeds(raw);
  }

  /** The slices with negative bounds, for an even-length text of at least
      ten characters. */
  lemma TailSlices(text: string)
    requires |text| >= 10
    ensures Slice(text, 6, -4) == text[6..|text| - 4]
    ensures Slice(text, -4, -2) == text[|text| - 4..|text| - 2]
    ensures Slice(text, -2, |text|) == text[|text| - 2..|text|]
    ensures Slice(text, 2, 4) == text[2..4] && Slice(text, 4, 6) == text[4..6]
  {
  }

  /** The hex text between the third byte and the last two. */
  lemma DataField(raw: seq<byte>)
    requires |raw| >= 5
    ensures Hexlify(raw)[6..2 * |raw| - 4] == Hexlify(raw[3..|raw| - 2])
  {
    HexlifySlice(raw, 3, |raw| - 2);
  }

  /** The two characters of the hexlified buffer that stand for byte `i`. */
  lemma ByteField(raw: seq<byte>, i: nat)
    requires i < |raw|
    ensures Hexlify(raw)[2 * i..2 * i + 2] == ByteHex(raw[i])
  {
    HexlifySlice(raw, i, i + 1);
    assert raw[i..i + 1] == [raw[i]];
    HexlifyOne(raw[i]);
  }

  /** Only the last two bytes differ between two buffers that differ only in
      their checksum, and the reply's other fields are the same: nothing is
      checked against the checksum. */
  lemma ParseIgnoresChecksum(prefix: seq<byte>, lo: byte, hi: byte, lo': byte, hi': byte)
    requires |prefix| >= 3
    ensures Parse(prefix + [lo, hi]).Ok? && Parse(prefix + [lo', hi']).Ok?
    ensures Parse(prefix + [lo, hi]).value.(lsb := ByteHex(lo'), msb := ByteHex(hi')) == Parse(prefix + [lo', hi']).value
  {
    var a, b := prefix + [lo, hi], prefix + [lo', hi'];
    ParseFields(a);
    ParseFields(b);
    assert a[3..|a| - 2] == prefix[3..] == b[3..|b| - 2];
  }

  /** Slicing a frame assembled from a one-byte length and a one-byte
      address gives back each of its parts as hex text. */
  lemma ParseAssembled(length: byte, addr: byte, cmd: byte, data: seq<byte>)
    ensures var body := [length] + [addr] + [cmd] + data;
      Parse(Assemble([length], [addr], cmd, data)) ==
        Ok(Reply(length as int, ByteHex(addr), ByteHex(cmd), Hexlify(data),
                 ByteHex(Lsb(Crc16(body))), ByteHex(Msb(Crc16(body)))))
  {
    var frame := Assemble([length], [addr], cmd, data);
    var n := |frame|;
    ParseFields(frame);
    assert frame[3..n - 2] == data;
  }

  /** The fields of an assembled frame decoded back to values: `len` as an
      integer, `addr`, `reCmd` and `data` through `fromhex`. */
  lemma ParseAssembledValues(len: byte, addr: byte, cmd: int, data: seq<byte>)
    requires IsByteValue(cmd)
    ensures Parse(Assemble([len], [addr], cmd as bv8, data)).Ok?
    ensures var reply := Parse(Assemble([len], [addr], cmd as bv8, data)).value;
      && reply.len == len as int
      && FromHex(reply.addr) == Some([addr])
      && FromHex(reply.reCmd) == Some([cmd as bv8])
      && FromHex(reply.data) == Some(data)
  {
    ParseAssembled(len, addr, cmd as bv8, data);
    FromHexHexlify([addr]);
    HexlifyOne(addr);
    FromHexHexlify([cmd as bv8]);
    HexlifyOne(cmd as bv8);
    FromHexHexlify(data);
  }

  /** Reading back a request with the reply parser: a frame built for a
      one-byte address and a payload of up to 95 bytes parses into its own
      length byte, address, command and payload. */
  lemma ParseBuiltRequest(addrText: string, cmd: int, payload: seq<int>)
    requires FromHex(addrText).Some? && |FromHex(addrText).value| == 1
    requires IsByteValue(cmd) && AllByteValues(payload) && |payload| <= 95
    ensures BuildRequest(addrText, cmd, payload).Ok?
    ensures Parse(BuildRequest(addrText, cmd, payload).value).Ok?
    ensures var reply := Parse(BuildRequest(addrText, cmd, payload).value).value;
      && LengthField(CountedLength(addrText, payload)).Some?
      && |LengthField(CountedLength(addrText, payload)).value| == 1
      && reply.len == LengthField(CountedLength(addrText, payload)).value[0] as int
      && FromHex(reply.addr) == FromHex(addrText)
      && FromHex(reply.reCmd) == Some([cmd as bv8])
      && FromHex(reply.data) == Some(ToBytes(payload))
  {
    var k := CountedLength(addrText, payload);
    var v := 16 * (k / 10) + k % 10;
    var addr := FromHex(addrText).value;
    assert [addr[0]] == addr;
    BuiltFrame(addrText, cmd, payload);
    LengthFieldSmall(k);
    ParseAssembledValues(v as bv8, addr[0], cmd, ToBytes(payload));
  }

  /** The request for a one-byte address and a short payload, as an
      assembled frame. */
  lemma BuiltFrame(addrText: string, cmd: int, payload: seq<int>)
    requires FromHex(addrText).Some? && |FromHex(addrText).value| == 1
    requires IsByteValue(cmd) && AllByteValues(payload) && |payload| <= 95
    ensures var k := CountedLength(addrText, payload);
      BuildRequest(addrText, cmd, payload) ==
        Ok(Assemble([(16 * (k / 10) + k % 10) as bv8], FromHex(addrText).value, cmd as bv8, ToBytes(payload)))
  {
    BuildRequestSpec(addrText, cmd, payload);
    LengthFieldSmall(CountedLength(addrText, payload));
  }
}

=== FILE: tags.dfy ===
/** Tag extraction from the hex text of a reply (`parseTag`): find the first
    "e200", then either cut the 24-character window there or collect every
    `e2\w{22}` match between that point and the last four characters. */
module Tags {
  import opened Hex

  /** `sisa`: the two checksum bytes at the end of a reply, as hex text. */
  const ChecksumChars := 4

  /** An EPC as hex text: 12 bytes. */
  const TagChars := 24

  /** The marker the tag region starts at. */
  const Marker := "e200"

  /** `\w`: a letter, a digit or the underscore. */
  predicate IsWordChar(c: char) {
    'a' <= c <= 'z' || 'A' <= c <= 'Z' || '0' <= c <= '9' || c == '_'
  }

  /** `s` holds `pat` at position `i`. */
  predicate OccursAt(s: string, pat: string, i: int) {
    0 <= i && i + |pat| <= |s| && s[i..i + |pat|] == pat
  }

  /** `s.index(pat)` from `from` on: the first position at which `pat`
      occurs, or `None` where Python raises `ValueError`. */
  function IndexFrom(s: string, pat: string, from: nat): (r: Option<nat>)
    requires from <= |s|
    ensures r.Some? ==> from <= r.value && OccursAt(s, pat, r.value)
    ensures r.Some? ==> forall j :: from <= j < r.value ==> !OccursAt(s, pat, j)
    ensures r.None? ==> forall j :: from <= j ==> !OccursAt(s, pat, j)
    decreases |s| - from
  {
    if from + |pat| > |s| then None
    else if s[from..from + |pat|] == pat then Some(from)
    else if from == |s| then None
    else IndexFrom(s, pat, from + 1)
  }

  function Index(s: string, pat: string): (r: Option<nat>)
    ensures r.Some? ==> OccursAt(s, pat, r.value) && forall j :: 0 <= j < r.value ==> !OccursAt(s, pat, j)
    ensures r.None? ==> forall j :: !OccursAt(s, pat, j)
  {
    IndexFrom(s, pat, 0)
  }

  /** The pattern `e2\w{22}` matches `s` at `p`. */
  predicate MatchesAt(s: string, p: int) {
    0 <= p && p + TagChars <= |s| && s[p] == 'e' && s[p + 1] == '2'
    && forall k :: p + 2 <= k < p + TagChars ==> IsWordChar(s[k])
  }

  /** Positions in a list are at least a tag apart, so the tags there do not
      overlap, and they come in increasing order. */
  predicate Spaced(ps: seq<int>) {
    forall j :: 0 <= j < |ps| - 1 ==> ps[j] + TagChars <= ps[j + 1]
  }

  /** `re.findall` scanning `s` from `p`: try the pattern at each position
      from left to right; after a match, carry on just past it. The pattern
      has a fixed length, so there is one way to match at a position. */
  function ScanFrom(s: string, p: nat): (ps: seq<nat>)
    requires p <= |s|
    ensures forall j :: 0 <= j < |ps| ==> p <= ps[j] && MatchesAt(s, ps[j])
    ensures Spaced(ps)
    decreases |s| - p
  {
    if p + TagChars > |s| then []
    else if MatchesAt(s, p) then [p] + ScanFrom(s, p + TagChars)
    else ScanFrom(s, p + 1)
  }

  /** The scan leaves no match out that does not overlap one it reported:
      every position the pattern matches at lies inside a reported match. */
  lemma {:induction false} ScanComplete(s: string, p: nat, q: int)
    requires p <= |s| && p <= q && MatchesAt(s, q)
    ensures exists j :: 0 <= j < |ScanFrom(s, p)| && ScanFrom(s, p)[j] <= q < ScanFrom(s, p)[j] + TagChars
    decreases |s| - p
  {
    var ps := ScanFrom(s, p);
    if MatchesAt(s, p) {
      assert ps[0] == p;
      if q >= p + TagChars {
        ScanComplete(s, p + TagChars, q);
        var j :| 0 <= j < |ScanFrom(s, p + TagChars)| && ScanFrom(s, p + TagChars)[j] <= q < ScanFrom(s, p + TagChars)[j] + TagChars;
        assert ps[j + 1] == ScanFrom(s, p + TagChars)[j];
      }
    } else {
      assert q != p;
      ScanComplete(s, p + 1, q);
    }
  }

  /** The substrings at the given positions. */
  function TagsAt(s: string, ps: seq<nat>): (tags: seq<string>)
    requires forall j :: 0 <= j < |ps| ==> ps[j] + TagChars <= |s|
    ensures |tags| == |ps|
    ensures forall j :: 0 <= j < |ps| ==> tags[j] == s[ps[j]..ps[j] + TagChars]
  {
    seq(|ps|, j requires 0 <= j < |ps| => s[ps[j]..ps[j] + TagChars])
  }

  /** `re.findall("e2\w{22}", s)`. */
  function FindAll(s: string): (tags: seq<string>)
    ensures forall j :: 0 <= j < |tags| ==> |tags[j]| == TagChars && MatchesAt(tags[j], 0)
  {
    var ps := ScanFrom(s, 0);
    var tags := TagsAt(s, ps);
    assert forall j :: 0 <= j < |tags| ==> |tags[j]| == TagChars && MatchesAt(tags[j], 0) by {
      forall j | 0 <= j < |tags|
        ensures |tags[j]| == TagChars && MatchesAt(tags[j], 0)
      {
        assert forall k :: 0 <= k < TagChars ==> tags[j][k] == s[ps[j] + k];
      }
    }
    tags
  }

  /** What `parseTag` returns: `None`, one string, or a list of strings. */
  datatype TagResult = NoTag | TagText(tag: string) | TagList(tags: seq<string>)

  /** The region `parseTag` searches with `parse_all=True`: from the first
      "e200" to four characters before the end. */
  function Region(text: string, start: nat): string
    requires OccursAt(text, Marker, start)
  {
    text[start..|text| - ChecksumChars]
  }

  /** `parseTag` on the decoded hex text: the one `ValueError` it catches is
      `index` not finding "e200". */
  function ParseTag(text: string, parseAll: bool): (r: TagResult)
    ensures parseAll <==> r.TagList?
    ensures r.NoTag? <==> !parseAll && Index(text, Marker).None?
  {
    match Index(text, Marker)
    case None => if parseAll then TagList([]) else NoTag
    case Some(start) =>
      if !parseAll then TagText(text[start..if start + TagChars <= |text| then start + TagChars else |text|])
      else TagList(FindAll(Region(text, start)))
  }

  /** Where the tags `parseTag` reports sit in the text, as absolute
      positions. */
  function TagPositions(text: string): (ps: seq<nat>)
    ensures Index(text, Marker).None? ==> ps == []
  {
    match Index(text, Marker)
    case None => []
    case Some(start) =>
      var rel := ScanFrom(Region(text, start), 0);
      seq(|rel|, j requires 0 <= j < |rel| => start + rel[j])
  }

  /** With `parse_all=True` the result is a list, never `None`: empty when
      "e200" is absent, otherwise one 24-character `e2…` text per reported
      position, the positions increasing and a tag apart, each tag lying
      between the first "e200" and the last four characters. */
  lemma ParseTagAll(text: string)
    ensures ParseTag(text, true).TagList?
    ensures Index(text, Marker).None? ==> ParseTag(text, true).tags == []
    ensures var tags := ParseTag(text, true).tags;
      var ps := TagPositions(text);
      && |tags| == |ps|
      && Spaced(ps)
      && forall j :: 0 <= j < |ps| ==>
           && Index(text, Marker).value <= ps[j]
           && ps[j] + TagChars <= |text| - ChecksumChars
           && tags[j] == text[ps[j]..ps[j] + TagChars]
           && MatchesAt(text, ps[j])
  {
    match Index(text, Marker)
    case None =>
    case Some(start) =>
      var region := Region(text, start);
      var rel := ScanFrom(region, 0);
      var ps := TagPositions(text);
      forall j | 0 <= j < |ps|
        ensures ParseTag(text, true).tags[j] == text[ps[j]..ps[j] + TagChars]
        ensures MatchesAt(text, ps[j])
      {
        RegionMatch(text, start, rel[j]);
      }
  }

  /** A match inside the region is a match in the text, shifted by where
      the region starts. */
  lemma RegionMatch(text: string, start: nat, r: nat)
    requires OccursAt(text, Marker, start) && MatchesAt(Region(text, start), r)
    ensures MatchesAt(text, start + r)
    ensures Region(text, start)[r..r + TagChars] == text[start + r..start + r + TagChars]
  {
    var region := Region(text, start);
    assert forall k :: r <= k < r + TagChars ==> region[k] == text[start + k];
  }

  /** Every tag in the list is 24 characters and starts "e2". */
  lemma ParseTagAllShape(text: string, t: string)
    requires ParseTag(text, true).TagList? && t in ParseTag(text, true).tags
    ensures |t| == TagChars && t[..2] == "e2"
  {
    ParseTagAll(text);
    var tags := ParseTag(text, true).tags;
    var j :| 0 <= j < |tags| && tags[j] == t;
    var p := TagPositions(text)[j];
    assert MatchesAt(text, p);
  }

  /** Every `e2\w{22}` match inside the searched region that does not
      overlap a reported tag is itself reported. */
  lemma ParseTagAllComplete(text: string, q: int)
    requires Index(text, Marker).Some?
    requires var start := Index(text, Marker).value;
      start <= q && q + TagChars <= |text| - ChecksumChars && MatchesAt(text, q)
    ensures exists j :: 0 <= j < |TagPositions(text)| && TagPositions(text)[j] <= q < TagPositions(text)[j] + TagChars
  {
    var start := Index(text, Marker).value;
    var region := Region(text, start);
    assert MatchesAt(region, q - start) by {
      assert forall k :: q - start <= k < q - start + TagChars ==> region[k] == text[start + k];
    }
    ScanComplete(region, 0, q - start);
    var rel := ScanFrom(region, 0);
    var j :| 0 <= j < |rel| && rel[j] <= q - start < rel[j] + TagChars;
    assert TagPositions(text)[j] == start + rel[j];
  }

  /** With `parse_all=False`: `None` when "e200" is absent, otherwise the
      text from the first "e200" on, cut to at most 24 characters and not
      checked any further. */
  lemma ParseTagFirst(text: string)
    ensures Index(text, Marker).None? <==> ParseTag(text, false) == NoTag
    ensures Index(text, Marker).Some? ==>
      var start := Index(text, Marker).value;
      var tag := ParseTag(text, false).tag;
      && ParseTag(text, false).TagText?
      && |tag| == (if |text| - start < TagChars then |text| - start else TagChars)
      && tag[..4] == Marker
      && tag == text[start..start + |tag|]
  {
  }
}
